=== FILE: README.md ===
# Planar grid mesh of the `wave1` ocean renderer

The renderer draws its ocean surface as one flat, square grid mesh, built once by
the constructor of the `Wave` class (`wave1/wave.hpp`). For a side length
`side`, a subdivision count `N` (`edges_per_side`) and a height `h`, the
constructor:

- fills a vertex array of `3·(N+1)²` floats: vertex `(row, col)` sits at
  `(origin + Δ·col, h, origin + Δ·row)` with `Δ = side / N` and
  `origin = -side / 2`, row-major, three slots per vertex;
- fills an index array of `6·N²` 32-bit unsigned integers: quad cell
  `(row, col)` with top-left vertex `tl = (N+1)·row + col` becomes the
  triangles `(tl, tl+N+1, tl+1)` and `(tl+1, tl+N+1, tl+N+2)`;
- has `draw()` issue one indexed triangle-list draw over `6·N²` indices, a
  count that the call narrows to the 32-bit signed `GLsizei`.

This project models those two generator loops, the two sizes and the draw
count, and proves what the mesh is:

- the array sizes;
- that every slot of both arrays is written exactly once, because both slot
  maps are bijections;
- that the two loops agree on the vertex layout;
- that every index names an existing vertex, and, while the indices fit into a
  `GLuint` (`N ≤ 65535`), a vertex of its own cell;
- the shared diagonal and the winding of each cell, and, while the indices fit
  into a `GLuint` (`N ≤ 65535`), the consistent winding of the whole stored mesh;
- the degenerate `N = 0` case;
- the exact ranges in which the two 32-bit narrowings are harmless: of the
  indices to `GLuint` (`N ≤ 65535`), and of the draw count to `GLsizei`
  (`N ≤ 18918`). Beyond the second bound the draw call draws nothing or only
  a prefix of the mesh.

Modules, one per file:

| module | file | content |
|---|---|---|
| `Layout` | `layout.dfy` | sizes, vertex numbers, the slot maps of both loops, and their inverses by division and remainder |
| `Widths` | `widths.dfy` | the `size_t → GLuint` narrowing of the indices and the `size_t → GLsizei` narrowing of the draw count, and when each is exact |
| `IdealFloat` | `idealfloat.dfy` | an idealised IEEE double: exact reals plus the infinities and NaN |
| `Geometry` | `geometry.dfy` | vertex positions and the functional vertex array `VertexSpec` |
| `Topology` | `topology.dfy` | cell corners, the functional element array `ElementSpec`, triangle assembly, winding |
| `WaveMesh` | `wave.dfy` | the constructor's loops as methods over sequences, and `Draw` |

The generator methods (`GenerateVertices`, `GenerateElements`) follow the source
loop by loop and store by store. A ghost tally counts the stores to every slot.
They are proved equal to the functional arrays `VertexSpec` and `ElementSpec`.
Those arrays are defined independently, by decoding each slot with division and
remainder.

The constructor does not check `N > 0`: for `N = 0` it allocates three vertex
floats and zero indices. The division `side / 0` then yields an infinity (or NaN for a
zero side), and scaling it by the zero row and column yields NaN. The model
follows the code (`DegenerateVertices`, `DegenerateMesh`).

## Model

| member | source | states |
|---|---|---|
| Layout.VertexIndexDecode | wave1/wave.hpp:40 | a vertex number `stride·row + col` with `col ≤ N` decodes by `/ stride` and `% stride` back to its row and column |
| Layout.VertexIndexEncode | wave1/wave.hpp:37-40 | every number below `(N+1)²` is the number of a grid vertex with row and column at most `N` |
| Layout.VertexIndexRange | wave1/wave.hpp:40 | every grid vertex has a number below `(N+1)²` |
| Layout.LayoutAgreement | wave1/wave.hpp:30-40 | the vertex loop stores vertex `(row, col)` at slots `3i .. 3i+2`, where `i` is the number the index loop writes for that vertex |
| Layout.VertexSlotOfIndex | wave1/wave.hpp:30-32 | slots `3i .. 3i+2` decode to row `i / stride` and column `i % stride` |
| Layout.VertexSlotRange | wave1/wave.hpp:20-34 | every store of the vertex loop lands inside the `3·(N+1)²` slots |
| Layout.VertexSlotDecode | wave1/wave.hpp:28-34 | decoding a vertex-loop slot gives back the iteration and coordinate that wrote it (injectivity) |
| Layout.VertexSlotEncode | wave1/wave.hpp:28-34 | every vertex slot is written by some iteration of the loop (surjectivity) |
| Layout.VertexSlotInjective | wave1/wave.hpp:28-34 | two iterations of the vertex loop never write the same slot |
| Layout.ElementSlotRange | wave1/wave.hpp:38-51 | every store of the index loop lands inside the `6·N²` slots |
| Layout.ElementSlotDecode | wave1/wave.hpp:38-51 | decoding an index-loop slot gives back the cell and corner that wrote it (injectivity) |
| Layout.ElementSlotEncode | wave1/wave.hpp:38-51 | every index slot is written by some iteration of the loop, which forces `N > 0` (surjectivity) |
| Layout.ElementSlotInjective | wave1/wave.hpp:38-51 | two iterations of the index loop never write the same slot |
| Widths.ToGLuint | wave1/wave.hpp:43-50 | storing a `size_t` into a `GLuint` keeps a value below `2^32` that is congruent to it modulo `2^32`, and keeps the value unchanged exactly when it is below `2^32` |
| Widths.SizesFitSizeT | wave1/wave.hpp:20-21 | when the indices fit into a `GLuint`, neither array size wraps around in `size_t` |
| Widths.IndicesFitBound | wave1/wave.hpp:43-50 | the indices fit into a `GLuint` exactly when `N ≤ 65535` |
| Widths.ToGLsizei | wave1/wave.hpp:72 | passing a `size_t` count as a `GLsizei` yields a 32-bit signed value congruent to it modulo `2^32`, equal to it exactly when it is at most `2^31 - 1`, and, when non-negative, no larger than it |
| Widths.DrawCountFitsBound | wave1/wave.hpp:72 | the index count `6·N²` fits into a `GLsizei` exactly when `N ≤ 18918`, and then the indices also fit into a `GLuint` |
| IdealFloat.ZeroDivisionPoisons | wave1/wave.hpp:24-32 | a quotient by zero, scaled by zero and added to anything, is NaN |
| Geometry.LoopCoordinate | wave1/wave.hpp:24-32 | the loop's `origin + delta·i` equals grid line `i`: `-side/2 + i·side/N`, or NaN when `N = 0` |
| Geometry.VertexSpec | wave1/wave.hpp:28-34 | the vertex array has `3·(N+1)²` slots, and the slot of coordinate `k` of vertex `(row, col)` holds that coordinate |
| Geometry.VertexSpecUnique | wave1/wave.hpp:28-34 | any array of that length holding every vertex's coordinates in its slots is the vertex array |
| Geometry.GridLineExact | wave1/wave.hpp:24-32 | for `N > 0` the first line is at `-side/2`, the last at `side/2`, and neighbours are `side/N` apart |
| Geometry.GridCorners | wave1/wave.hpp:27-32 | the grid runs from `(origin, origin)` to `(-origin, -origin)` at height `h`, as the comment at line 27 says, in exact arithmetic |
| Geometry.GridCentred | wave1/wave.hpp:27-32 | mirroring a row or column about the middle negates its coordinate |
| Geometry.DegenerateVertices | wave1/wave.hpp:19-32 | for `N = 0` the vertex array is `[NaN, h, NaN]` |
| Topology.CornerInCell | wave1/wave.hpp:40-50 | each of the six corners of cell `(row, col)` is vertex `(row + dr, col + dc)`, with `dr, dc ∈ {0, 1}`, decodes to that row and column without wrapping, and is below `(N+1)²` |
| Topology.LargestCorner | wave1/wave.hpp:50 | the last corner of the last cell is vertex `(N+1)² - 1` |
| Topology.ElementSpec | wave1/wave.hpp:38-51 | the index array has `6·N²` slots, and slot `ElementSlot(row, col, k)` holds corner `k` of cell `(row, col)`, narrowed to `GLuint` |
| Topology.ElementSpecUnique | wave1/wave.hpp:38-51 | any array of that length holding every cell's corners in its slots is the index array |
| Topology.ElementsInRange | wave1/wave.hpp:40-50 | for every `N`, every stored index is below `(N+1)²`, whether or not the narrowing to `GLuint` changed it |
| Topology.NarrowingAliases | wave1/wave.hpp:43-50 | for `N = 65536` the narrowing stores the last corner, vertex `(65536, 65536)`, as the number of vertex `(1, 65535)` |
| Topology.SharedDiagonal | wave1/wave.hpp:43-50 | both triangles of a cell have three distinct vertices and share exactly `{tl+1, tl+stride}` |
| Topology.CellWinding | wave1/wave.hpp:43-50 | both triangles of every cell have signed area `-1/2` in `(col, row)` grid units |
| Topology.TriangleCell | wave1/wave.hpp:38-51 | every triangle number below `2·N²` is triangle `t` of a cell `(row, col)` of the grid, made of that cell's slots `3t .. 3t+2` |
| Topology.Triangles | wave1/wave.hpp:72 | triangle-list assembly yields `⌊len/3⌋` triangles, which flatten back to the list without its incomplete tail |
| Topology.TrianglesAt | wave1/wave.hpp:72 | assembled triangle `j` is made of indices `3j, 3j+1, 3j+2` |
| Topology.MeshTriangleCount | wave1/wave.hpp:72 | the index array assembles into `2·N²` triangles |
| Topology.MeshTriangles | wave1/wave.hpp:43-50 | when the indices fit, assembled triangle `2·(row·N + col) + t` is triangle `t` of cell `(row, col)` |
| Topology.TriangleStored | wave1/wave.hpp:43-50 | when the indices fit, the index array holds the three corners of each triangle at the triangle's three positions |
| Topology.CornerStored | wave1/wave.hpp:43-50 | when the indices fit, every corner is stored unchanged in its slot |
| Topology.MeshWinding | wave1/wave.hpp:43-50 | when the indices fit, every assembled triangle of the mesh has signed area `-1/2` |
| Topology.SingleQuad | wave1/wave.hpp:37-52 | `N = 1` gives 4 vertices, the indices `[0, 2, 1, 1, 2, 3]` and the triangles `(0, 2, 1)`, `(1, 2, 3)` |
| Topology.ApplicationMeshSizes | wave1/main.cpp:190 | the application's mesh, `N = 6000`, has 36012001 vertices and 216000000 indices, and its indices fit |
| WaveMesh.NewWave | wave1/wave.hpp:19-52 | the constructor builds exactly the mesh of the layout, with arrays of `3·(N+1)²` and `6·N²` slots and `elements_size = 6·N²` |
| WaveMesh.Draw | wave1/wave.hpp:70-73 | the draw call narrows `elements_size` to `GLsizei`: a negative count draws nothing, otherwise it yields `⌊count/3⌋` triangles, `⌊elements_size/3⌋` when the size fits, which flatten to the first indices of the array |
| WaveMesh.DrawWholeMesh | wave1/wave.hpp:72 | when the index count fits into a `GLsizei`, drawing a constructed mesh uses every index, as `2·N²` triangles, all wound alike, all naming existing vertices |
| WaveMesh.DrawCountWraps | wave1/wave.hpp:72 | for `N = 20000` the indices fit into a `GLuint` but the narrowed count is negative and nothing is drawn; for `N = 26755` only 4284 of the 1431660050 triangles are drawn |
| WaveMesh.DegenerateMesh | wave1/wave.hpp:19-21 | `N = 0` is accepted: one vertex `[NaN, h, NaN]`, no indices, nothing drawn |
| WaveMesh.ElementsNameCellCorners | wave1/wave.hpp:30-50 | the index stored for a corner points, through vertex slots `3i .. 3i+2`, at the coordinates of that corner's grid vertex |
| WaveMesh.GenerateVertices | wave1/wave.hpp:28-34 | the vertex loop produces the vertex array and writes every slot exactly once |
| WaveMesh.GenerateVertexRow | wave1/wave.hpp:29-33 | one row of the vertex loop extends the finished part by that row and writes each of its slots once |
| WaveMesh.StoreVertex | wave1/wave.hpp:30-32 | one iteration stores the vertex's three coordinates in its three slots and touches no other slot |
| WaveMesh.VertexStored | wave1/wave.hpp:30-32 | storing the next vertex extends the stored prefix of the vertex array by that vertex |
| WaveMesh.GenerateElements | wave1/wave.hpp:37-52 | the index loop produces the index array and writes every slot exactly once |
| WaveMesh.GenerateRow | wave1/wave.hpp:39-51 | one row of the index loop extends the finished part by that row and writes each of its slots once |
| WaveMesh.StoreCorners | wave1/wave.hpp:40-50 | one iteration stores the cell's six narrowed corners in its six slots and touches no other slot |
| WaveMesh.CellStored | wave1/wave.hpp:43-50 | storing the next cell extends the stored prefix of the index array by that cell |

## Left out

- GPU work is not modelled: creating, binding, uploading and deleting the vertex array object and buffers (`wave1/wave.hpp:54-67`, `75-82`), and the rasterisation behind `glDrawElements`. `Draw` models only which triangles the draw call assembles from the index buffer. The `GL_INVALID_VALUE` error that a negative count raises is not recorded; the model only draws nothing.
- Heap allocation of the two arrays (`wave1/wave.hpp:22-23`) becomes a fresh sequence. Allocation failure is not modelled.
- Floating point is idealised: finite doubles are exact reals, and signed zeros are not distinguished. The rounding of `delta`, `origin` and `origin + delta·i`, and the conversion of each coordinate from `double` to `GLfloat`, are not modelled. Only the infinities and NaN that a zero subdivision count produces are kept.
- `size_t` is taken to be 64 bits wide; a 32-bit `size_t` is not modelled.
- `size_t` wrap-around in the size and slot computations is not modelled. `Widths.SizesFitSizeT` shows that no wrap occurs while the indices fit into a `GLuint`. Beyond that range the model computes exact sizes.
- The default value `0.0` of the height argument is an ordinary parameter.
- `wave1/shader.hpp` (shader loading and uniform setters) and `wave1/main.cpp` (window, UI, input and per-frame glue) are not part of this model, apart from the mesh size used at `wave1/main.cpp:190`. The camera, `camera.hpp`, is not part of this model.

=== FILE: geometry.dfy ===
/** Vertex positions of the planar grid mesh, as idealised doubles.

    Vertex `(row, col)` of an `n`-edge grid of side length `side` sits at
    `x = origin + delta * col`, `y = height`, `z = origin + delta * row`,
    where `delta = side / n` and `origin = -side / 2`. For `n = 0` the division
    yields an infinity or NaN, and scaling it by the zero row and column
    yields NaN, so the single vertex has NaN `x` and `z`.
 */
module Geometry {
  import opened Layout
  import opened IdealFloat

  datatype Point = Point(x: Float, y: Float, z: Float)

  /** Coordinate `k` of a point, in the order the vertex array stores them. */
  function Component(p: Point, k: nat): Float
    requires k < 3
  {
    if k == 0 then p.x else if k == 1 then p.y else p.z
  }

  /** Distance between neighbouring grid lines, `side / n`. */
  function Delta(side: real, n: nat): Float
  {
    Div(Finite(side), Finite(n as real))
  }

  /** Coordinate of the first grid line, `-side / 2`. */
  function Origin(side: real): Float
  {
    Div(Neg(Finite(side)), Finite(2.0))
  }

  /** Coordinate of grid line `i`: `i` steps of `side / n` from `-side / 2`, and
      NaN when there are no steps to divide the side into. */
  function GridLine(side: real, n: nat, i: nat): Float
  {
    if n == 0 then NaN else Finite(-side / 2.0 + (i as real) * (side / (n as real)))
  }

  /** The vertex loop's double arithmetic, `origin + delta * i`, computes the grid
      line on every line the loop visits, including the NaN of an empty grid. */
  lemma LoopCoordinate(side: real, n: nat, i: nat)
    requires i <= n
    ensures Add(Origin(side), Mul(Delta(side, n), Finite(i as real))) == GridLine(side, n, i)
  {
    if n == 0 {
      ZeroDivisionPoisons(side, Origin(side));
    } else {
      var d := side / (n as real);
      assert d * (i as real) == (i as real) * d;
    }
  }

  /** Position of vertex `(row, col)`. */
  function GridPoint(side: real, n: nat, height: real, row: nat, col: nat): Point
  {
    Point(GridLine(side, n, col), Finite(height), GridLine(side, n, row))
  }

  /** The vertex array: slot `s` holds coordinate `s % 3` of vertex `s / 3`, whose
      row and column are `(s / 3) / stride` and `(s / 3) % stride`. */
  function VertexSpec(side: real, n: nat, height: real): (v: seq<Float>)
    ensures |v| == VertexSlotCount(n)
    ensures forall row: nat, col: nat, k: nat {:trigger VertexSlot(n, row, col, k)} ::
      row <= n && col <= n && k < 3 ==>
        VertexSlot(n, row, col, k) < |v| &&
        v[VertexSlot(n, row, col, k)] == Component(GridPoint(side, n, height, row, col), k)
  {
    var v := seq(VertexSlotCount(n), (s: nat) =>
      var p := DecodeVertexSlot(n, s);
      Component(GridPoint(side, n, height, p.row, p.col), s % 3));
    forall row: nat, col: nat, k: nat | row <= n && col <= n && k < 3
      ensures VertexSlot(n, row, col, k) < |v|
      ensures v[VertexSlot(n, row, col, k)] == Component(GridPoint(side, n, height, row, col), k)
    {
      VertexSlotRange(n, row, col, k);
      VertexSlotDecode(n, row, col, k);
    }
    v
  }

  /** The vertex array is the only array of its length that holds every vertex's
      coordinates in the vertex's slots: the slot map is a bijection. */
  lemma VertexSpecUnique(side: real, n: nat, height: real, v: seq<Float>)
    requires |v| == VertexSlotCount(n)
    requires forall row: nat, col: nat, k: nat {:trigger VertexSlot(n, row, col, k)} ::
      row <= n && col <= n && k < 3 ==>
        VertexSlot(n, row, col, k) < |v| &&
        v[VertexSlot(n, row, col, k)] == Component(GridPoint(side, n, height, row, col), k)
    ensures v == VertexSpec(side, n, height)
  {
    var spec := VertexSpec(side, n, height);
    forall s | 0 <= s < |v|
      ensures v[s] == spec[s]
    {
      VertexSlotEncode(n, s);
      var p := DecodeVertexSlot(n, s);
      assert v[VertexSlot(n, p.row, p.col, p.k)] == spec[VertexSlot(n, p.row, p.col, p.k)];
    }
  }

  /** Grid lines of a nonempty grid are exact: line `i` is at `-side / 2 + i * side / n`.
      In particular the first line is at `-side / 2` and the last at `side / 2`,
      and neighbouring lines are `side / n` apart. */
  lemma GridLineExact(side: real, n: nat, i: nat)
    requires n > 0
    ensures GridLine(side, n, 0) == Finite(-side / 2.0)
    ensures GridLine(side, n, n) == Finite(side / 2.0)
    ensures GridLine(side, n, i + 1).value - GridLine(side, n, i).value == side / (n as real)
  {
    var d := side / (n as real);
    assert (n as real) * d == side;
    assert ((i + 1) as real) * d == (i as real) * d + d;
  }

  /** The corners of a nonempty grid run from `(origin, origin)` to
      `(-origin, -origin)`, and every vertex lies at height `height`. */
  lemma GridCorners(side: real, n: nat, height: real, row: nat, col: nat)
    requires n > 0
    ensures GridPoint(side, n, height, 0, 0) ==
      Point(Finite(-side / 2.0), Finite(height), Finite(-side / 2.0))
    ensures GridPoint(side, n, height, n, n) ==
      Point(Finite(side / 2.0), Finite(height), Finite(side / 2.0))
    ensures GridPoint(side, n, height, row, col).y == Finite(height)
  {
    GridLineExact(side, n, 0);
    GridLineExact(side, n, n);
  }

  /** A nonempty grid is centred on the origin: mirroring a column (or row)
      index about the middle negates its coordinate. */
  lemma GridCentred(side: real, n: nat, i: nat)
    requires n > 0 && i <= n
    ensures GridLine(side, n, i).value == -GridLine(side, n, n - i).value
  {
    var d := side / (n as real);
    assert (n as real) * d == side;
    assert ((n - i) as real) == (n as real) - (i as real);
    assert ((n - i) as real) * d == (n as real) * d - (i as real) * d;
  }

  /** With zero edges per side the single vertex has NaN `x` and `z`, whatever
      the side length: the generator does not reject this input. */
  lemma DegenerateVertices(side: real, height: real)
    ensures VertexSpec(side, 0, height) == [NaN, Finite(height), NaN]
  {
    var v := VertexSpec(side, 0, height);
    DegenerateSlot(side, height, 0);
    DegenerateSlot(side, height, 1);
    DegenerateSlot(side, height, 2);
    assert |v| == 3;
  }

  lemma DegenerateSlot(side: real, height: real, k: nat)
    requires k < 3
    ensures VertexSpec(side, 0, height)[k] == Component(Point(NaN, Finite(height), NaN), k)
  {
    var p := GridPoint(side, 0, height, 0, 0);
    assert VertexSpec(side, 0, height)[VertexSlot(0, 0, 0, k)] == Component(p, k);
    assert VertexSlot(0, 0, 0, k) == k;
  }
}

=== FILE: idealfloat.dfy ===
/** An idealised IEEE 754 double.

    Finite values are exact reals: no rounding is modelled. The two
    infinities and NaN are kept, because the generator divides by the edge
    count and so, for a zero edge count, produces them. Signed zeros are not
    distinguished.
 */
module IdealFloat {

  datatype Float = Finite(value: real) | Infinity(negative: bool) | NaN

  function Neg(a: Float): Float
  {
    match a
    case Finite(x) => Finite(-x)
    case Infinity(neg) => Infinity(!neg)
    case NaN => NaN
  }

  function Add(a: Float, b: Float): Float
  {
    match (a, b)
    case (Finite(x), Finite(y)) => Finite(x + y)
    case (Infinity(s), Finite(_)) => a
    case (Finite(_), Infinity(t)) => b
    case (Infinity(s), Infinity(t)) => if s == t then a else NaN
    case _ => NaN
  }

  /** Sign of a nonzero finite value or an infinity; `true` for negative. */
  function SignOf(a: Float): bool
  {
    match a
    case Finite(x) => x < 0.0
    case Infinity(neg) => neg
    case NaN => false
  }

  function Mul(a: Float, b: Float): Float
  {
    match (a, b)
    case (Finite(x), Finite(y)) => Finite(x * y)
    case (Infinity(_), Finite(y)) => if y == 0.0 then NaN else Infinity(SignOf(a) != SignOf(b))
    case (Finite(x), Infinity(_)) => if x == 0.0 then NaN else Infinity(SignOf(a) != SignOf(b))
    case (Infinity(_), Infinity(_)) => Infinity(SignOf(a) != SignOf(b))
    case _ => NaN
  }

  function Div(a: Float, b: Float): Float
  {
    match (a, b)
    case (Finite(x), Finite(y)) =>
      if y != 0.0 then Finite(x / y)
      else if x == 0.0 then NaN
      else Infinity(x < 0.0)
    case (Infinity(_), Finite(y)) => Infinity(SignOf(a) != (y < 0.0))
    case (Finite(_), Infinity(_)) => Finite(0.0)
    case _ => NaN
  }

  /** A quotient by zero, scaled by zero, is NaN whatever the dividend; NaN then
      absorbs any addition. */
  lemma ZeroDivisionPoisons(x: real, o: Float)
    ensures Add(o, Mul(Div(Finite(x), Finite(0.0)), Finite(0.0))) == NaN
  {
  }
}

=== FILE: layout.dfy ===
/** Index arithmetic of the planar grid mesh.

    A mesh with `n` edges per side has `n + 1` vertices per side (the
    stride). Vertices are numbered row-major, vertex `(row, col)` getting the
    number `stride * row + col`; its three coordinates occupy three
    consecutive slots of the vertex array. Each of the `n * n` quad cells owns
    six consecutive slots of the element (index) array.

    This module gives both directions of every layout map: the encoding the
    generator loops use to pick a slot, and the decoding by division and
    remainder, and proves they are inverse to each other on their ranges.
 */
module Layout {

  /** Vertices per side of the grid: `vertices_per_side` in the source. */
  function Stride(n: nat): nat { n + 1 }

  /** Number of vertices of the grid. */
  function VertexCount(n: nat): nat { Stride(n) * Stride(n) }

  /** Number of float slots of the vertex array (`vertices_size`). */
  function VertexSlotCount(n: nat): nat { 3 * Stride(n) * Stride(n) }

  /** Number of slots of the element array (`elements_size`). */
  function ElementCount(n: nat): nat { 6 * n * n }

  /** The number of vertex `(row, col)`; `top_left` when `(row, col)` is a cell. */
  function VertexIndex(n: nat, row: nat, col: nat): nat { Stride(n) * row + col }

  /** Row of vertex number `i`. */
  function VertexRow(n: nat, i: nat): nat { i / Stride(n) }

  /** Column of vertex number `i`. */
  function VertexCol(n: nat, i: nat): nat { i % Stride(n) }

  /** Slot of coordinate `k` of vertex `(row, col)`, as the vertex loop computes it. */
  function VertexSlot(n: nat, row: nat, col: nat, k: nat): nat
  {
    row * Stride(n) * 3 + col * 3 + k
  }

  /** Slot of corner `k` of cell `(row, col)`, as the element loop computes it. */
  function ElementSlot(n: nat, row: nat, col: nat, k: nat): nat
  {
    row * n * 6 + col * 6 + k
  }

  /** A decoded slot: the loop iteration `(row, col)` and the component `k`. */
  datatype SlotPos = SlotPos(row: nat, col: nat, k: nat)

  /** The loop iteration and corner that own element slot `s`. */
  function DecodeElementSlot(n: nat, s: nat): SlotPos
    requires n > 0
  {
    SlotPos(s / (6 * n), (s % (6 * n)) / 6, s % 6)
  }

  /** The vertex and coordinate that own vertex slot `s`. */
  function DecodeVertexSlot(n: nat, s: nat): SlotPos
  {
    SlotPos(VertexRow(n, s / 3), VertexCol(n, s / 3), s % 3)
  }

  /** Quotient and remainder are determined by any decomposition `a == q * b + r`
      with `0 <= r < b`. */
  lemma DivModUnique(a: int, b: int, q: int, r: int)
    requires b > 0 && 0 <= r < b && a == q * b + r
    ensures a / b == q && a % b == r
  {
    var q', r' := a / b, a % b;
    assert a == q' * b + r';
    if q' < q {
      assert (q' + 1) * b == q' * b + b;
      MulMonotone(q' + 1, q, b);
    } else if q' > q {
      assert (q + 1) * b == q * b + b;
      MulMonotone(q + 1, q', b);
    }
  }

  lemma MulMonotone(x: int, y: int, b: int)
    requires x <= y && b >= 0
    ensures x * b <= y * b
  {
    assert y * b - x * b == (y - x) * b;
  }

  /** Column and row of a vertex number are recovered by division and remainder
      exactly when the column lies inside the grid. */
  lemma VertexIndexDecode(n: nat, row: nat, col: nat)
    requires col <= n
    ensures VertexRow(n, VertexIndex(n, row, col)) == row
    ensures VertexCol(n, VertexIndex(n, row, col)) == col
  {
    DivModUnique(VertexIndex(n, row, col), Stride(n), row, col);
  }

  /** Every vertex number of the grid is the number of the vertex at its decoded
      row and column, which lie inside the grid. */
  lemma VertexIndexEncode(n: nat, i: nat)
    requires i < VertexCount(n)
    ensures VertexRow(n, i) <= n && VertexCol(n, i) <= n
    ensures VertexIndex(n, VertexRow(n, i), VertexCol(n, i)) == i
  {
    var s := Stride(n);
    var q := i / s;
    assert i == s * q + i % s;
    if q > n {
      MulMonotone(s, q, s);
      assert false;
    }
  }

  /** A vertex inside the grid has a number below the vertex count. */
  lemma VertexIndexRange(n: nat, row: nat, col: nat)
    requires row <= n && col <= n
    ensures VertexIndex(n, row, col) < VertexCount(n)
  {
    MulMonotone(row, n, Stride(n));
    assert Stride(n) * n + Stride(n) == VertexCount(n);
  }

  /** The vertex loop and the element loop agree on where a vertex lives: the
      coordinates of vertex `(row, col)` occupy slots `3i .. 3i + 2` of the vertex
      array, where `i` is the number the element loop writes for that vertex. */
  lemma LayoutAgreement(n: nat, row: nat, col: nat, k: nat)
    ensures VertexSlot(n, row, col, k) == 3 * VertexIndex(n, row, col) + k
  {
    assert row * Stride(n) * 3 == 3 * (Stride(n) * row);
  }

  /** Slot-level form of the layout agreement: slots `3i .. 3i + 2` of the vertex
      array decode to the row `i / stride` and column `i % stride` of vertex `i`. */
  lemma VertexSlotOfIndex(n: nat, i: nat, k: nat)
    requires k < 3
    ensures DecodeVertexSlot(n, 3 * i + k) == SlotPos(VertexRow(n, i), VertexCol(n, i), k)
  {
    DivModUnique(3 * i + k, 3, i, k);
  }

  /** The vertex loop writes only inside the vertex array. */
  lemma VertexSlotRange(n: nat, row: nat, col: nat, k: nat)
    requires row <= n && col <= n && k < 3
    ensures VertexSlot(n, row, col, k) < VertexSlotCount(n)
  {
    LayoutAgreement(n, row, col, k);
    VertexIndexRange(n, row, col);
  }

  /** Decoding the slot the vertex loop writes gives back the iteration and the
      coordinate that wrote it. */
  lemma VertexSlotDecode(n: nat, row: nat, col: nat, k: nat)
    requires col <= n && k < 3
    ensures DecodeVertexSlot(n, VertexSlot(n, row, col, k)) == SlotPos(row, col, k)
  {
    LayoutAgreement(n, row, col, k);
    VertexSlotOfIndex(n, VertexIndex(n, row, col), k);
    VertexIndexDecode(n, row, col);
  }

  /** Every slot of the vertex array is written by the vertex loop: its decoding
      is an iteration of the loop, and encoding that iteration gives the slot. */
  lemma VertexSlotEncode(n: nat, s: nat)
    requires s < VertexSlotCount(n)
    ensures var p := DecodeVertexSlot(n, s);
      p.row <= n && p.col <= n && p.k < 3 && VertexSlot(n, p.row, p.col, p.k) == s
  {
    var i := s / 3;
    assert s == 3 * i + s % 3;
    VertexIndexEncode(n, i);
    LayoutAgreement(n, VertexRow(n, i), VertexCol(n, i), s % 3);
  }

  /** The vertex loop never writes the same slot twice. */
  lemma VertexSlotInjective(n: nat, p: SlotPos, q: SlotPos)
    requires p.col <= n && p.k < 3 && q.col <= n && q.k < 3
    requires VertexSlot(n, p.row, p.col, p.k) == VertexSlot(n, q.row, q.col, q.k)
    ensures p == q
  {
    VertexSlotDecode(n, p.row, p.col, p.k);
    VertexSlotDecode(n, q.row, q.col, q.k);
  }

  /** The element loop writes only inside the element array. */
  lemma ElementSlotRange(n: nat, row: nat, col: nat, k: nat)
    requires row < n && col < n && k < 6
    ensures ElementSlot(n, row, col, k) < ElementCount(n)
  {
    var rn := row * n;
    assert rn + n <= n * n by {
      MulMonotone(row + 1, n, n);
      assert (row + 1) * n == rn + n;
    }
    assert ElementCount(n) == (n * n) * 6;
  }

  /** Decoding the slot the element loop writes gives back the iteration and the
      corner that wrote it. */
  lemma ElementSlotDecode(n: nat, row: nat, col: nat, k: nat)
    requires col < n && k < 6
    ensures DecodeElementSlot(n, ElementSlot(n, row, col, k)) == SlotPos(row, col, k)
  {
    var s := ElementSlot(n, row, col, k);
    assert row * n * 6 == row * (6 * n);
    DivModUnique(s, 6 * n, row, col * 6 + k);
    DivModUnique(col * 6 + k, 6, col, k);
    DivModUnique(s, 6, row * n + col, k);
  }

  /** Every slot of the element array is written by the element loop: its
      decoding is an iteration of the loop, and encoding it gives the slot. */
  lemma ElementSlotEncode(n: nat, s: nat)
    requires s < ElementCount(n)
    ensures n > 0
    ensures var p := DecodeElementSlot(n, s);
      p.row < n && p.col < n && p.k < 6 && ElementSlot(n, p.row, p.col, p.k) == s
  {
    if n == 0 {
      assert false;
    }
    var m := 6 * n;
    var row, rest := s / m, s % m;
    var col := rest / 6;
    assert s == row * m + rest;
    assert row < n by {
      assert n * m == ElementCount(n);
      if row >= n {
        MulMonotone(n, row, m);
        assert false;
      }
    }
    assert rest == col * 6 + rest % 6;
    assert col < n by {
      if col >= n {
        MulMonotone(n, col, 6);
        assert false;
      }
    }
    assert s == (row * n + col) * 6 + rest % 6 by {
      assert row * m == (row * n) * 6;
    }
    DivModUnique(s, 6, row * n + col, rest % 6);
  }

  /** The element loop never writes the same slot twice. */
  lemma ElementSlotInjective(n: nat, p: SlotPos, q: SlotPos)
    requires p.col < n && p.k < 6 && q.col < n && q.k < 6
    requires ElementSlot(n, p.row, p.col, p.k) == ElementSlot(n, q.row, q.col, q.k)
    ensures p == q
  {
    ElementSlotDecode(n, p.row, p.col, p.k);
    ElementSlotDecode(n, q.row, q.col, q.k);
  }

  /** One iteration of the element loop's inner loop ends where the next begins,
      and the last column of a row ends where the next row begins. */
  lemma ElementSlotStep(n: nat, row: nat, col: nat)
    ensures ElementSlot(n, row, col, 6) == ElementSlot(n, row, col + 1, 0)
    ensures ElementSlot(n, row, n, 0) == ElementSlot(n, row + 1, 0, 0)
    ensures ElementSlot(n, n, 0, 0) == ElementCount(n)
  {
    assert (row + 1) * n * 6 == row * n * 6 + n * 6;
  }

  /** As `ElementSlotStep`, for the vertex loop. */
  lemma VertexSlotStep(n: nat, row: nat, col: nat)
    ensures VertexSlot(n, row, col, 3) == VertexSlot(n, row, col + 1, 0)
    ensures VertexSlot(n, row, Stride(n), 0) == VertexSlot(n, row + 1, 0, 0)
    ensures VertexSlot(n, Stride(n), 0, 0) == VertexSlotCount(n)
  {
    assert (row + 1) * Stride(n) * 3 == row * Stride(n) * 3 + Stride(n) * 3;
  }
}

=== FILE: topology.dfy ===
/** Triangle topology of the planar grid mesh.

    Each quad cell `(row, col)` with top-left vertex `tl` and stride `s` is
    split along its top-right to bottom-left diagonal into the triangles
    `(tl, tl + s, tl + 1)` and `(tl + 1, tl + s, tl + s + 1)`; the six vertex
    numbers are stored, narrowed to 32 bits, in the cell's six element slots.
 */
module Topology {
  import opened Layout
  import opened Widths

  /** Vertex number the element loop computes for corner `k` of cell `(row, col)`,
      before it is narrowed to `GLuint`. */
  function Corner(n: nat, row: nat, col: nat, k: nat): nat
    requires k < 6
  {
    var tl := VertexIndex(n, row, col);
    var s := Stride(n);
    if k == 0 then tl
    else if k == 1 then tl + s
    else if k == 2 then tl + 1
    else if k == 3 then tl + 1
    else if k == 4 then tl + s
    else tl + s + 1
  }

  /** Row and column offset, inside its cell, of the vertex at corner `k`. */
  datatype Offset = Offset(dr: nat, dc: nat)

  function CornerOffset(k: nat): Offset
    requires k < 6
  {
    [Offset(0, 0), Offset(1, 0), Offset(0, 1), Offset(0, 1), Offset(1, 0), Offset(1, 1)][k]
  }

  /** Every corner of a cell names a vertex of that cell: decoding its number with
      `(i / stride, i % stride)` gives a row in `{row, row + 1}` and a column in
      `{col, col + 1}`. Since `col + 1 <= n < stride`, `tl + 1` never wraps into
      the next row. */
  lemma CornerInCell(n: nat, row: nat, col: nat, k: nat)
    requires row < n && col < n && k < 6
    ensures var o := CornerOffset(k);
      && Corner(n, row, col, k) == VertexIndex(n, row + o.dr, col + o.dc)
      && VertexRow(n, Corner(n, row, col, k)) == row + o.dr
      && VertexCol(n, Corner(n, row, col, k)) == col + o.dc
      && Corner(n, row, col, k) < VertexCount(n)
  {
    var o := CornerOffset(k);
    assert Stride(n) * (row + 1) == Stride(n) * row + Stride(n);
    VertexIndexDecode(n, row + o.dr, col + o.dc);
    VertexIndexRange(n, row + o.dr, col + o.dc);
  }

  /** The largest vertex number written is the last vertex of the grid. */
  lemma LargestCorner(n: nat)
    requires n > 0
    ensures Corner(n, n - 1, n - 1, 5) == VertexCount(n) - 1
  {
    assert Stride(n) * (n - 1) + Stride(n) == Stride(n) * n;
    assert Stride(n) * Stride(n) == Stride(n) * n + Stride(n);
  }

  /** The element array: slot `s` belongs to cell `(s / 6n, (s % 6n) / 6)` and
      holds its corner `s % 6`, narrowed to `GLuint`. */
  function ElementSpec(n: nat): (e: seq<nat>)
    ensures |e| == ElementCount(n)
    ensures forall row: nat, col: nat, k: nat {:trigger ElementSlot(n, row, col, k)} ::
      row < n && col < n && k < 6 ==>
        ElementSlot(n, row, col, k) < |e| &&
        e[ElementSlot(n, row, col, k)] == ToGLuint(Corner(n, row, col, k))
  {
    if n == 0 then []
    else
      var e := seq(ElementCount(n), (s: nat) =>
        var p := DecodeElementSlot(n, s);
        ToGLuint(Corner(n, p.row, p.col, s % 6)));
      forall row: nat, col: nat, k: nat | row < n && col < n && k < 6
        ensures ElementSlot(n, row, col, k) < |e|
        ensures e[ElementSlot(n, row, col, k)] == ToGLuint(Corner(n, row, col, k))
      {
        ElementSlotRange(n, row, col, k);
        ElementSlotDecode(n, row, col, k);
      }
      e
  }

  /** The element array is the only array of its length that holds every cell's
      corners in the cell's slots: since the slot map is a bijection, fixing the
      value written at every slot of the loop fixes the whole array. */
  lemma ElementSpecUnique(n: nat, e: seq<nat>)
    requires |e| == ElementCount(n)
    requires forall row: nat, col: nat, k: nat {:trigger ElementSlot(n, row, col, k)} ::
      row < n && col < n && k < 6 ==>
        ElementSlot(n, row, col, k) < |e| &&
        e[ElementSlot(n, row, col, k)] == ToGLuint(Corner(n, row, col, k))
    ensures e == ElementSpec(n)
  {
    var spec := ElementSpec(n);
    forall s | 0 <= s < |e|
      ensures e[s] == spec[s]
    {
      ElementSlotEncode(n, s);
      var p := DecodeElementSlot(n, s);
      assert e[ElementSlot(n, p.row, p.col, p.k)] == spec[ElementSlot(n, p.row, p.col, p.k)];
    }
  }

  /** Every element refers to an existing vertex. When the vertex numbers fit
      into a `GLuint` each element is its corner; when they do not, the
      narrowed value is below `2^32`, which is below the vertex count. */
  lemma ElementsInRange(n: nat)
    ensures forall s :: 0 <= s < |ElementSpec(n)| ==> ElementSpec(n)[s] < VertexCount(n)
  {
    var e := ElementSpec(n);
    forall s | 0 <= s < |e|
      ensures e[s] < VertexCount(n)
    {
      ElementSlotEncode(n, s);
      var p := DecodeElementSlot(n, s);
      CornerInCell(n, p.row, p.col, p.k);
      assert e[ElementSlot(n, p.row, p.col, p.k)] == ToGLuint(Corner(n, p.row, p.col, p.k));
    }
  }

  /** Beyond 65535 edges per side the narrowing to `GLuint` makes the mesh refer
      to the wrong vertices: with 65536 edges the last corner of the last cell,
      vertex `(65536, 65536)`, is stored as the number of vertex `(1, 65535)`. */
  lemma NarrowingAliases()
    ensures !IndicesFit(65536)
    ensures Corner(65536, 65535, 65535, 5) == VertexIndex(65536, 65536, 65536)
    ensures ElementSpec(65536)[ElementSlot(65536, 65535, 65535, 5)] == VertexIndex(65536, 1, 65535)
  {
    assert ElementSlot(65536, 65535, 65535, 5) < ElementCount(65536);
  }

  datatype Triangle = Triangle(a: nat, b: nat, c: nat)

  /** Triangle `t` (0: top-left, 1: bottom-right) of cell `(row, col)`. */
  function CellTriangle(n: nat, row: nat, col: nat, t: nat): Triangle
    requires t < 2
  {
    Triangle(Corner(n, row, col, 3 * t), Corner(n, row, col, 3 * t + 1), Corner(n, row, col, 3 * t + 2))
  }

  function VerticesOf(tri: Triangle): set<nat>
  {
    {tri.a, tri.b, tri.c}
  }

  /** The two triangles of a cell are proper triangles and share exactly the
      diagonal from the top-right vertex to the bottom-left vertex. */
  lemma SharedDiagonal(n: nat, row: nat, col: nat)
    requires row < n && col < n
    ensures |VerticesOf(CellTriangle(n, row, col, 0))| == 3
    ensures |VerticesOf(CellTriangle(n, row, col, 1))| == 3
    ensures VerticesOf(CellTriangle(n, row, col, 0)) * VerticesOf(CellTriangle(n, row, col, 1))
      == {VertexIndex(n, row, col + 1), VertexIndex(n, row + 1, col)}
  {
    var tl, s := VertexIndex(n, row, col), Stride(n);
    assert Stride(n) * (row + 1) == Stride(n) * row + Stride(n);
    assert VerticesOf(CellTriangle(n, row, col, 0)) == {tl, tl + s, tl + 1};
    assert VerticesOf(CellTriangle(n, row, col, 1)) == {tl + 1, tl + s, tl + s + 1};
    assert |{tl, tl + s, tl + 1}| == 3 by {
      assert {tl, tl + s, tl + 1} == {tl} + {tl + s} + {tl + 1};
    }
    assert |{tl + 1, tl + s, tl + s + 1}| == 3 by {
      assert {tl + 1, tl + s, tl + s + 1} == {tl + 1} + {tl + s} + {tl + s + 1};
    }
  }

  /** Twice the signed area of a triangle, with vertex `i` placed at the integer
      grid point `(i % stride, i / stride)`, that is `(col, row)`. */
  function SignedArea2(n: nat, tri: Triangle): int
  {
    var x0: int, y0: int := VertexCol(n, tri.a), VertexRow(n, tri.a);
    var x1: int, y1: int := VertexCol(n, tri.b), VertexRow(n, tri.b);
    var x2: int, y2: int := VertexCol(n, tri.c), VertexRow(n, tri.c);
    Cross(x1 - x0, y1 - y0, x2 - x0, y2 - y0)
  }

  /** The perpendicular component of the cross product of two plane vectors. */
  function Cross(dx1: int, dy1: int, dx2: int, dy2: int): int
  {
    dx1 * dy2 - dy1 * dx2
  }

  /** Both triangles of every cell have the same, nonzero orientation: signed area
      -1/2 in `(col, row)` grid units. */
  lemma CellWinding(n: nat, row: nat, col: nat, t: nat)
    requires row < n && col < n && t < 2
    ensures SignedArea2(n, CellTriangle(n, row, col, t)) == -1
  {
    var tri := CellTriangle(n, row, col, t);
    var o0, o1, o2 := CornerOffset(3 * t), CornerOffset(3 * t + 1), CornerOffset(3 * t + 2);
    CornerInCell(n, row, col, 3 * t);
    CornerInCell(n, row, col, 3 * t + 1);
    CornerInCell(n, row, col, 3 * t + 2);
    assert SignedArea2(n, tri) == Cross(o1.dc - o0.dc, o1.dr - o0.dr, o2.dc - o0.dc, o2.dr - o0.dr);
  }

  /** A triangle number of the mesh decomposed into its cell and its place in it:
      triangle `j` is made of element slots `3j .. 3j + 2`. */
  lemma TriangleCell(n: nat, j: nat) returns (row: nat, col: nat, t: nat)
    requires j < 2 * n * n
    ensures row < n && col < n && t < 2
    ensures j == TriangleNumber(n, row, col, t)
    ensures 3 * j == ElementSlot(n, row, col, 3 * t)
  {
    if n == 0 {
      assert false;
    }
    var cell := j / 2;
    t := j % 2;
    row, col := cell / n, cell % n;
    assert cell == row * n + col;
    assert row < n by {
      if row >= n {
        MulMonotone(n, row, n);
        assert false;
      }
    }
  }

  /** The flat index list a triangle list is drawn from. */
  function Flatten(tris: seq<Triangle>): (e: seq<nat>)
    ensures |e| == 3 * |tris|
  {
    if |tris| == 0 then [] else [tris[0].a, tris[0].b, tris[0].c] + Flatten(tris[1..])
  }

  /** Triangle-list assembly: consecutive triples of an index list form the
      triangles; one or two trailing indices are ignored. Flattening the result
      gives back the list without its incomplete tail. */
  function Triangles(e: seq<nat>): (tris: seq<Triangle>)
    ensures |tris| == |e| / 3
    ensures Flatten(tris) == e[..3 * |tris|]
  {
    if |e| < 3 then []
    else
      var rest := Triangles(e[3..]);
      assert e[..3 * (|rest| + 1)] == e[..3] + e[3..][..3 * |rest|];
      [Triangle(e[0], e[1], e[2])] + rest
  }

  /** Triangle `j` of a list is flattened to positions `3j .. 3j + 2`. */
  lemma {:induction false} FlattenAt(tris: seq<Triangle>, j: nat)
    requires j < |tris|
    ensures Flatten(tris)[3 * j] == tris[j].a
    ensures Flatten(tris)[3 * j + 1] == tris[j].b
    ensures Flatten(tris)[3 * j + 2] == tris[j].c
    decreases j
  {
    assert Flatten(tris) == [tris[0].a, tris[0].b, tris[0].c] + Flatten(tris[1..]);
    if j > 0 {
      FlattenAt(tris[1..], j - 1);
      assert tris[1..][j - 1] == tris[j];
    }
  }

  /** Triangle `j` of an assembled list is made of indices `3j .. 3j + 2`. */
  lemma TrianglesAt(e: seq<nat>, j: nat)
    requires 3 * j + 2 < |e|
    ensures j < |Triangles(e)|
    ensures Triangles(e)[j] == Triangle(e[3 * j], e[3 * j + 1], e[3 * j + 2])
  {
    var tris := Triangles(e);
    assert j < |tris|;
    FlattenAt(tris, j);
  }

  /** The element array assembles into `2 n^2` whole triangles. */
  lemma MeshTriangleCount(n: nat)
    ensures |Triangles(ElementSpec(n))| == 2 * n * n
    ensures 3 * |Triangles(ElementSpec(n))| == ElementCount(n)
  {
    var e := ElementSpec(n);
    assert |e| == 3 * (2 * n * n);
    DivModUnique(|e|, 3, 2 * n * n, 0);
  }

  /** The number, in row-major cell order, of triangle `t` of cell `(row, col)`. */
  function TriangleNumber(n: nat, row: nat, col: nat, t: nat): nat
  {
    2 * (row * n + col) + t
  }

  /** The three indices of triangle `t` of a cell are the cell's slots `3t .. 3t + 2`. */
  lemma TriangleSlots(n: nat, row: nat, col: nat, t: nat)
    requires row < n && col < n && t < 2
    ensures 3 * TriangleNumber(n, row, col, t) == ElementSlot(n, row, col, 3 * t)
    ensures ElementSlot(n, row, col, 3 * t + 2) < ElementCount(n)
  {
    assert row * n * 6 == 6 * (row * n);
    ElementSlotRange(n, row, col, 3 * t + 2);
  }

  /** When the vertex numbers fit into a `GLuint`, the element array assembles into
      two triangles per cell in row-major cell order, exactly the triangles the
      cell split defines. */
  lemma MeshTriangles(n: nat, row: nat, col: nat, t: nat)
    requires IndicesFit(n)
    requires row < n && col < n && t < 2
    ensures TriangleNumber(n, row, col, t) < |Triangles(ElementSpec(n))|
    ensures Triangles(ElementSpec(n))[TriangleNumber(n, row, col, t)] == CellTriangle(n, row, col, t)
  {
    var e := ElementSpec(n);
    var j := TriangleNumber(n, row, col, t);
    TriangleSlots(n, row, col, t);
    MeshTriangleCount(n);
    TrianglesAt(e, j);
    TriangleStored(n, row, col, t);
  }

  /** The element array holds the three corners of triangle `t` of cell
      `(row, col)` at the triangle's three index positions. */
  lemma TriangleStored(n: nat, row: nat, col: nat, t: nat)
    requires IndicesFit(n)
    requires row < n && col < n && t < 2
    ensures 3 * TriangleNumber(n, row, col, t) + 2 < |ElementSpec(n)|
    ensures ElementSpec(n)[3 * TriangleNumber(n, row, col, t)] == Corner(n, row, col, 3 * t)
    ensures ElementSpec(n)[3 * TriangleNumber(n, row, col, t) + 1] == Corner(n, row, col, 3 * t + 1)
    ensures ElementSpec(n)[3 * TriangleNumber(n, row, col, t) + 2] == Corner(n, row, col, 3 * t + 2)
  {
    var e, j := ElementSpec(n), TriangleNumber(n, row, col, t);
    TriangleSlots(n, row, col, t);
    assert e[3 * j] == Corner(n, row, col, 3 * t) by {
      CornerStored(n, row, col, 3 * t);
    }
    assert e[3 * j + 1] == Corner(n, row, col, 3 * t + 1) by {
      assert 3 * j + 1 == ElementSlot(n, row, col, 3 * t + 1);
      CornerStored(n, row, col, 3 * t + 1);
    }
    assert e[3 * j + 2] == Corner(n, row, col, 3 * t + 2) by {
      assert 3 * j + 2 == ElementSlot(n, row, col, 3 * t + 2);
      CornerStored(n, row, col, 3 * t + 2);
    }
  }

  /** When the vertex numbers fit into a `GLuint`, the element array holds each
      corner's vertex number unchanged. */
  lemma CornerStored(n: nat, row: nat, col: nat, k: nat)
    requires IndicesFit(n)
    requires row < n && col < n && k < 6
    ensures ElementSlot(n, row, col, k) < |ElementSpec(n)|
    ensures ElementSpec(n)[ElementSlot(n, row, col, k)] == Corner(n, row, col, k)
  {
    CornerInCell(n, row, col, k);
  }

  /** Winding is consistent across the whole mesh: every triangle of the
      assembled element array has signed area -1/2 in grid units. */
  lemma MeshWinding(n: nat)
    requires IndicesFit(n)
    ensures forall j :: 0 <= j < |Triangles(ElementSpec(n))| ==>
      SignedArea2(n, Triangles(ElementSpec(n))[j]) == -1
  {
    var tris := Triangles(ElementSpec(n));
    MeshTriangleCount(n);
    forall j | 0 <= j < |tris|
      ensures SignedArea2(n, tris[j]) == -1
    {
      var row, col, t := TriangleCell(n, j);
      MeshTriangles(n, row, col, t);
      CellWinding(n, row, col, t);
    }
  }

  /** One edge per side gives a single quad: four vertices and the two
      triangles `(0, 2, 1)` and `(1, 2, 3)`. */
  lemma SingleQuad()
    ensures VertexCount(1) == 4
    ensures ElementSpec(1) == [0, 2, 1, 1, 2, 3]
    ensures Triangles(ElementSpec(1)) == [Triangle(0, 2, 1), Triangle(1, 2, 3)]
  {
    var e := ElementSpec(1);
    assert IndicesFit(1);
    QuadSlot(0);
    QuadSlot(1);
    QuadSlot(2);
    QuadSlot(3);
    QuadSlot(4);
    QuadSlot(5);
    assert e == [0, 2, 1, 1, 2, 3];
    TrianglesAt(e, 0);
    TrianglesAt(e, 1);
  }

  lemma QuadSlot(k: nat)
    requires k < 6
    ensures ElementSpec(1)[k] == Corner(1, 0, 0, k)
  {
    CornerStored(1, 0, 0, k);
    assert ElementSlot(1, 0, 0, k) == k;
  }

  /** The mesh the application builds, 6000 edges per side, has 36012001
      vertices and 216000000 indices, and its vertex numbers fit into a `GLuint`. */
  lemma ApplicationMeshSizes()
    ensures VertexCount(6000) == 36012001
    ensures ElementCount(6000) == 216000000
    ensures |ElementSpec(6000)| == 216000000
    ensures IndicesFit(6000)
  {
  }
}

=== FILE: wave.dfy ===
/** The `Wave` mesh object: its constructor's two generator loops and its draw
    call.

    The constructor fills a vertex array and an element array with nested
    loops and uploads both to the GPU; `draw` issues one indexed triangle-list
    draw over `elements_size` indices, a count the call narrows to a 32-bit
    signed `GLsizei`. The GPU side is not modelled: a `Wave` holds the two
    arrays as they are uploaded, and `Draw` yields the triangles the GPU
    assembles from them.
 */
module WaveMesh {
  import opened Layout
  import opened Widths
  import opened IdealFloat
  import opened Geometry
  import opened Topology

  datatype Wave = Wave(vertices: seq<Float>, elements: seq<nat>, elementsSize: nat)

  /** The mesh the constructor builds. */
  function Mesh(side: real, n: nat, height: real): Wave
  {
    Wave(VertexSpec(side, n, height), ElementSpec(n), ElementCount(n))
  }

  /** The constructor: the two generator loops, and the element count that
      `draw` later passes to the GPU. */
  method NewWave(side: real, n: nat, height: real) returns (w: Wave)
    ensures w == Mesh(side, n, height)
    ensures |w.vertices| == 3 * (n + 1) * (n + 1)
    ensures |w.elements| == w.elementsSize == 6 * n * n
  {
    var elementsSize := 6 * n * n;
    var vertices, _ := GenerateVertices(side, n, height);
    var elements, _ := GenerateElements(n);
    w := Wave(vertices, elements, elementsSize);
  }

  /** The draw call: an indexed triangle-list draw of the first `count`
      indices, where `count` is `elementsSize` narrowed to `GLsizei`.
      Consecutive triples form the triangles; the GPU ignores an incomplete
      trailing triple. A negative count is an invalid value, and the call
      draws nothing. */
  function Draw(w: Wave): (tris: seq<Triangle>)
    requires w.elementsSize <= |w.elements|
    ensures w.elementsSize <= GLSIZEI_MAX ==> |tris| == w.elementsSize / 3
    ensures ToGLsizei(w.elementsSize) < 0 ==> tris == []
    ensures 0 <= ToGLsizei(w.elementsSize) ==> |tris| == ToGLsizei(w.elementsSize) / 3
    ensures Flatten(tris) == w.elements[..3 * |tris|]
  {
    var count := ToGLsizei(w.elementsSize);
    if count < 0 then [] else Triangles(w.elements[..count])
  }

  /** Drawing a constructed mesh whose index count fits into a `GLsizei` draws
      every index of the element array, as `2 n^2` triangles, all wound the same
      way and all made of existing vertices. */
  lemma DrawWholeMesh(side: real, n: nat, height: real)
    requires DrawCountFits(n)
    ensures var w := Mesh(side, n, height);
      && w.elementsSize <= |w.elements|
      && |Draw(w)| == 2 * n * n
      && Flatten(Draw(w)) == w.elements
      && (forall j :: 0 <= j < |Draw(w)| ==> SignedArea2(n, Draw(w)[j]) == -1)
      && (forall s :: 0 <= s < |w.elements| ==> w.elements[s] < VertexCount(n))
  {
    var w := Mesh(side, n, height);
    DrawCountFitsBound(n);
    assert w.elements[..w.elementsSize] == ElementSpec(n);
    var tris := Draw(w);
    assert tris == Triangles(ElementSpec(n));
    MeshTriangleCount(n);
    assert Flatten(tris) == w.elements;
    MeshWinding(n);
    ElementsInRange(n);
  }

  /** Beyond 18918 edges per side the narrowed draw count is wrong although the
      vertex numbers still fit: with 20000 edges it is negative and nothing is
      drawn, and with 26755 edges it is 12854, so only 4284 of the mesh's
      1431660050 triangles are drawn. */
  lemma DrawCountWraps(side: real, height: real)
    ensures IndicesFit(20000) && !DrawCountFits(20000)
    ensures Draw(Mesh(side, 20000, height)) == []
    ensures IndicesFit(26755) && |Draw(Mesh(side, 26755, height))| == 4284
    ensures 2 * 26755 * 26755 == 1431660050
  {
    assert ToGLsizei(ElementCount(20000)) == -1894967296;
    assert ToGLsizei(ElementCount(26755)) == 12854;
  }

  /** Zero edges per side is accepted: the mesh has one vertex with NaN `x` and
      `z`, no elements, and draws nothing. */
  lemma DegenerateMesh(side: real, height: real)
    ensures Mesh(side, 0, height) == Wave([NaN, Finite(height), NaN], [], 0)
    ensures Draw(Mesh(side, 0, height)) == []
  {
    DegenerateVertices(side, height);
  }

  /** The two loops agree on the vertex layout: the vertex number stored for
      corner `k` of cell `(row, col)` points, through slots `3i .. 3i + 2` of the
      vertex array, at the coordinates of that corner's grid vertex. */
  lemma ElementsNameCellCorners(side: real, n: nat, height: real, row: nat, col: nat, k: nat, c: nat)
    requires IndicesFit(n)
    requires row < n && col < n && k < 6 && c < 3
    ensures var w := Mesh(side, n, height);
      var o := CornerOffset(k);
      && ElementSlot(n, row, col, k) < |w.elements|
      && 3 * w.elements[ElementSlot(n, row, col, k)] + c < |w.vertices|
      && w.vertices[3 * w.elements[ElementSlot(n, row, col, k)] + c]
         == Component(GridPoint(side, n, height, row + o.dr, col + o.dc), c)
  {
    var w := Mesh(side, n, height);
    var o := CornerOffset(k);
    var r, cl := row + o.dr, col + o.dc;
    assert ElementSlot(n, row, col, k) < |w.elements| &&
      w.elements[ElementSlot(n, row, col, k)] == VertexIndex(n, r, cl) by {
      CornerStored(n, row, col, k);
      CornerInCell(n, row, col, k);
    }
    assert VertexSlot(n, r, cl, c) == 3 * VertexIndex(n, r, cl) + c by {
      LayoutAgreement(n, r, cl, c);
    }
    assert VertexSlot(n, r, cl, c) < |w.vertices| &&
      w.vertices[VertexSlot(n, r, cl, c)] == Component(GridPoint(side, n, height, r, cl), c);
  }

  /** The store tally after one store to each slot `lo .. hi`. */
  ghost function Touched(writes: seq<nat>, lo: nat, hi: nat): seq<nat>
  {
    seq(|writes|, s requires 0 <= s < |writes| => writes[s] + if lo <= s <= hi then 1 else 0)
  }

  /** The vertex array after the loop has finished rows `0 .. row - 1`: every
      finished vertex's coordinates are stored in its slots, all of which lie
      before row `row`. */
  ghost predicate VertexRowsStored(side: real, n: nat, height: real, row: nat, v: seq<Float>)
  {
    && row <= n + 1
    && |v| == VertexSlotCount(n)
    && VertexSlot(n, row, 0, 0) <= |v|
    && (forall r: nat, c: nat, k: nat {:trigger VertexSlot(n, r, c, k)} ::
          r < row && c <= n && k < 3 ==>
            VertexSlot(n, r, c, k) < VertexSlot(n, row, 0, 0) &&
            v[VertexSlot(n, r, c, k)] == Component(GridPoint(side, n, height, r, c), k))
  }

  /** The store tally after the loop has finished rows `0 .. row - 1`: each slot
      before row `row` written once, no later slot written. */
  ghost predicate VertexRowsWritten(n: nat, row: nat, writes: seq<nat>)
  {
    && |writes| == VertexSlotCount(n)
    && (forall s :: 0 <= s < |writes| ==> writes[s] == if s < VertexSlot(n, row, 0, 0) then 1 else 0)
  }

  /** The vertex-layout loop. Every slot of the vertex array is written exactly
      once, in increasing slot order, and the result is the vertex array of the
      layout. */
  method GenerateVertices(side: real, n: nat, height: real) returns (vertices: seq<Float>, ghost writes: seq<nat>)
    ensures vertices == VertexSpec(side, n, height)
    ensures |writes| == |vertices|
    ensures forall s :: 0 <= s < |writes| ==> writes[s] == 1
  {
    var verticesSize := 3 * (n + 1) * (n + 1);
    var v: seq<Float> := seq(verticesSize, _ => NaN);
    writes := seq(verticesSize, _ => 0);
    var delta := Div(Finite(side), Finite(n as real));
    var origin := Div(Neg(Finite(side)), Finite(2.0));
    var row := 0;
    while row <= n
      invariant VertexRowsStored(side, n, height, row, v) && VertexRowsWritten(n, row, writes)
    {
      v, writes := GenerateVertexRow(side, n, height, delta, origin, row, v, writes);
      row := row + 1;
    }
    VertexSlotStep(n, 0, 0);
    VertexSpecUnique(side, n, height, v);
    vertices := v;
  }

  /** One pass of the vertex-layout loop's inner loop: stores the three
      coordinates of every vertex of row `row`. */
  method GenerateVertexRow(side: real, n: nat, height: real, delta: Float, origin: Float, row: nat,
                           v: seq<Float>, ghost writes: seq<nat>)
    returns (v': seq<Float>, ghost writes': seq<nat>)
    requires delta == Delta(side, n) && origin == Origin(side)
    requires row <= n && VertexRowsStored(side, n, height, row, v) && VertexRowsWritten(n, row, writes)
    ensures VertexRowsStored(side, n, height, row + 1, v')
    ensures VertexRowsWritten(n, row + 1, writes')
  {
    v', writes' := v, writes;
    ghost var next := VertexSlot(n, row, 0, 0);  // the slot the next store goes to
    var column := 0;
    while column <= n
      invariant column <= n + 1
      invariant |v'| == |writes'| == VertexSlotCount(n)
      invariant next == VertexSlot(n, row, column, 0) <= |v'|
      invariant forall s :: 0 <= s < |v'| ==> writes'[s] == if s < next then 1 else 0
      invariant forall r: nat, c: nat, k: nat {:trigger VertexSlot(n, r, c, k)} ::
        (r < row || (r == row && c < column)) && c <= n && k < 3 ==>
          VertexSlot(n, r, c, k) < next && v'[VertexSlot(n, r, c, k)] == Component(GridPoint(side, n, height, r, c), k)
    {
      ghost var before := v';
      v', writes' := StoreVertex(side, n, height, delta, origin, row, column, v', writes');
      VertexStored(side, n, height, row, column, before, v');
      next := next + 3;
      VertexSlotStep(n, row, column);
      column := column + 1;
    }
    VertexSlotStep(n, row, column);
  }

  /** The body of the vertex loop for vertex `(row, column)`: stores the
      vertex's three coordinates in its three slots and touches no other slot. */
  method StoreVertex(side: real, n: nat, height: real, delta: Float, origin: Float, row: nat, column: nat,
                     v: seq<Float>, ghost writes: seq<nat>)
    returns (v': seq<Float>, ghost writes': seq<nat>)
    requires delta == Delta(side, n) && origin == Origin(side)
    requires row <= n && column <= n
    requires |v| == |writes| == VertexSlotCount(n)
    ensures |v'| == |writes'| == |v| && VertexSlot(n, row, column, 2) < |v|
    ensures forall s :: 0 <= s < |v| ==>
      writes'[s] == writes[s] + if VertexSlot(n, row, column, 0) <= s <= VertexSlot(n, row, column, 2) then 1 else 0
    ensures forall s :: 0 <= s < |v| && !(VertexSlot(n, row, column, 0) <= s <= VertexSlot(n, row, column, 2)) ==>
      v'[s] == v[s]
    ensures forall s :: VertexSlot(n, row, column, 0) <= s <= VertexSlot(n, row, column, 2) ==>
      v'[s] == Component(GridPoint(side, n, height, row, column), s - VertexSlot(n, row, column, 0))
  {
    var base := VertexSlot(n, row, column, 0);
    VertexSlotRange(n, row, column, 2);
    ghost var p := GridPoint(side, n, height, row, column);
    var x := Add(origin, Mul(delta, Finite(column as real)));
    var z := Add(origin, Mul(delta, Finite(row as real)));
    assert x == p.x && z == p.z by {
      LoopCoordinate(side, n, column);
      LoopCoordinate(side, n, row);
    }
    v' := v[base + 0 := x];
    v' := v'[base + 1 := Finite(height)];
    v' := v'[base + 2 := z];
    writes' := Touched(writes, base, base + 2);
  }

  /** Storing the coordinates of vertex `(row, col)` after the vertices before it
      extends the stored part of the vertex array by that vertex. */
  lemma VertexStored(side: real, n: nat, height: real, row: nat, col: nat, v: seq<Float>, v': seq<Float>)
    requires row <= n && col <= n
    requires |v'| == |v| == VertexSlotCount(n) && VertexSlot(n, row, col, 2) < |v|
    requires forall r: nat, c: nat, k: nat {:trigger VertexSlot(n, r, c, k)} ::
      (r < row || (r == row && c < col)) && c <= n && k < 3 ==>
        VertexSlot(n, r, c, k) < VertexSlot(n, row, col, 0) &&
        v[VertexSlot(n, r, c, k)] == Component(GridPoint(side, n, height, r, c), k)
    requires forall s :: 0 <= s < VertexSlot(n, row, col, 0) ==> v'[s] == v[s]
    requires forall s :: VertexSlot(n, row, col, 0) <= s <= VertexSlot(n, row, col, 2) ==>
      v'[s] == Component(GridPoint(side, n, height, row, col), s - VertexSlot(n, row, col, 0))
    ensures forall r: nat, c: nat, k: nat {:trigger VertexSlot(n, r, c, k)} ::
      (r < row || (r == row && c < col + 1)) && c <= n && k < 3 ==>
        VertexSlot(n, r, c, k) < VertexSlot(n, row, col + 1, 0) &&
        v'[VertexSlot(n, r, c, k)] == Component(GridPoint(side, n, height, r, c), k)
  {
    forall r: nat, c: nat, k: nat | (r < row || (r == row && c < col + 1)) && c <= n && k < 3
      ensures VertexSlot(n, r, c, k) < VertexSlot(n, row, col + 1, 0)
      ensures v'[VertexSlot(n, r, c, k)] == Component(GridPoint(side, n, height, r, c), k)
    {
      if r == row && c == col {
        assert VertexSlot(n, r, c, k) == VertexSlot(n, row, col, 0) + k;
      }
    }
  }

  /** Storing the six corners of cell `(row, col)` after the cells before it
      extends the stored part of the element array by that cell. */
  lemma CellStored(n: nat, row: nat, col: nat, a: seq<nat>, a': seq<nat>)
    requires row < n && col < n
    requires |a'| == |a| == ElementCount(n) && ElementSlot(n, row, col, 5) < |a|
    requires forall r: nat, c: nat, k: nat {:trigger ElementSlot(n, r, c, k)} ::
      (r < row || (r == row && c < col)) && c < n && k < 6 ==>
        ElementSlot(n, r, c, k) < ElementSlot(n, row, col, 0) && a[ElementSlot(n, r, c, k)] == ToGLuint(Corner(n, r, c, k))
    requires forall s :: 0 <= s < ElementSlot(n, row, col, 0) ==> a'[s] == a[s]
    requires forall s :: ElementSlot(n, row, col, 0) <= s <= ElementSlot(n, row, col, 5) ==>
      a'[s] == ToGLuint(Corner(n, row, col, s - ElementSlot(n, row, col, 0)))
    ensures forall r: nat, c: nat, k: nat {:trigger ElementSlot(n, r, c, k)} ::
      (r < row || (r == row && c < col + 1)) && c < n && k < 6 ==>
        ElementSlot(n, r, c, k) < ElementSlot(n, row, col + 1, 0) && a'[ElementSlot(n, r, c, k)] == ToGLuint(Corner(n, r, c, k))
  {
    forall r: nat, c: nat, k: nat | (r < row || (r == row && c < col + 1)) && c < n && k < 6
      ensures ElementSlot(n, r, c, k) < ElementSlot(n, row, col + 1, 0)
      ensures a'[ElementSlot(n, r, c, k)] == ToGLuint(Corner(n, r, c, k))
    {
      if r == row && c == col {
        assert ElementSlot(n, r, c, k) == ElementSlot(n, row, col, 0) + k;
      }
    }
  }

  /** The element array after the loop has finished rows `0 .. row - 1`: every
      finished cell's corners are stored in its slots, all of which lie before
      row `row`. */
  ghost predicate RowsStored(n: nat, row: nat, a: seq<nat>)
  {
    && row <= n
    && |a| == ElementCount(n)
    && ElementSlot(n, row, 0, 0) <= |a|
    && (forall r: nat, c: nat, k: nat {:trigger ElementSlot(n, r, c, k)} ::
          r < row && c < n && k < 6 ==>
            ElementSlot(n, r, c, k) < ElementSlot(n, row, 0, 0) &&
            a[ElementSlot(n, r, c, k)] == ToGLuint(Corner(n, r, c, k)))
  }

  /** The store tally after the loop has finished rows `0 .. row - 1`: each slot
      before row `row` written once, no later slot written. */
  ghost predicate RowsWritten(n: nat, row: nat, writes: seq<nat>)
  {
    && |writes| == ElementCount(n)
    && (forall s :: 0 <= s < |writes| ==> writes[s] == if s < ElementSlot(n, row, 0, 0) then 1 else 0)
  }

  /** The triangle-index loop. Every slot of the element array is written exactly
      once (`writes` counts the stores to each slot), in increasing slot order,
      and the result is the element array of the layout. */
  method GenerateElements(n: nat) returns (elements: seq<nat>, ghost writes: seq<nat>)
    ensures elements == ElementSpec(n)
    ensures |writes| == |elements|
    ensures forall s :: 0 <= s < |writes| ==> writes[s] == 1
  {
    var elementsSize := 6 * n * n;
    var a: seq<nat> := seq(elementsSize, _ => 0);
    writes := seq(elementsSize, _ => 0);
    var row := 0;
    while row < n
      invariant RowsStored(n, row, a) && RowsWritten(n, row, writes)
    {
      a, writes := GenerateRow(n, row, a, writes);
      row := row + 1;
    }
    ElementSlotStep(n, row, 0);
    ElementSpecUnique(n, a);
    elements := a;
  }

  /** One pass of the triangle-index loop's inner loop: stores the two triangles
      of every cell of row `row`, in six consecutive slots per cell. */
  method GenerateRow(n: nat, row: nat, a: seq<nat>, ghost writes: seq<nat>)
    returns (a': seq<nat>, ghost writes': seq<nat>)
    requires row < n && RowsStored(n, row, a) && RowsWritten(n, row, writes)
    ensures RowsStored(n, row + 1, a')
    ensures RowsWritten(n, row + 1, writes')
  {
    a', writes' := a, writes;
    ghost var next := ElementSlot(n, row, 0, 0);  // the slot the next store goes to
    var verticesPerSide := n + 1;
    var column := 0;
    while column < n
      invariant column <= n
      invariant |a'| == |writes'| == ElementCount(n)
      invariant next == ElementSlot(n, row, column, 0) <= |a'|
      invariant forall s :: 0 <= s < |a'| ==> writes'[s] == if s < next then 1 else 0
      invariant forall r: nat, c: nat, k: nat {:trigger ElementSlot(n, r, c, k)} ::
        (r < row || (r == row && c < column)) && c < n && k < 6 ==>
          ElementSlot(n, r, c, k) < next && a'[ElementSlot(n, r, c, k)] == ToGLuint(Corner(n, r, c, k))
    {
      ghost var before := a';
      a', writes' := StoreCorners(n, row, column, verticesPerSide, a', writes');
      CellStored(n, row, column, before, a');
      next := next + 6;
      ElementSlotStep(n, row, column);
      column := column + 1;
    }
    ElementSlotStep(n, row, column);
  }

  /** The body of the triangle-index loop for cell `(row, column)`: stores the
      cell's two triangles, narrowed to `GLuint`, in the cell's six slots and
      touches no other slot. */
  method StoreCorners(n: nat, row: nat, column: nat, verticesPerSide: nat, a: seq<nat>, ghost writes: seq<nat>)
    returns (a': seq<nat>, ghost writes': seq<nat>)
    requires row < n && column < n && verticesPerSide == Stride(n)
    requires |a| == |writes| == ElementCount(n)
    ensures |a'| == |writes'| == |a| && ElementSlot(n, row, column, 5) < |a|
    ensures forall s :: 0 <= s < |a| ==>
      writes'[s] == writes[s] + if ElementSlot(n, row, column, 0) <= s <= ElementSlot(n, row, column, 5) then 1 else 0
    ensures forall s :: 0 <= s < |a| && !(ElementSlot(n, row, column, 0) <= s <= ElementSlot(n, row, column, 5)) ==>
      a'[s] == a[s]
    ensures forall s :: ElementSlot(n, row, column, 0) <= s <= ElementSlot(n, row, column, 5) ==>
      a'[s] == ToGLuint(Corner(n, row, column, s - ElementSlot(n, row, column, 0)))
  {
    var topLeft := verticesPerSide * row + column;
    var base := ElementSlot(n, row, column, 0);
    assert topLeft == VertexIndex(n, row, column);
    ElementSlotRange(n, row, column, 5);
    // top left triangle
    a' := a[base + 0 := ToGLuint(topLeft)];
    a' := a'[base + 1 := ToGLuint(topLeft + verticesPerSide)];
    a' := a'[base + 2 := ToGLuint(topLeft + 1)];
    // bottom right triangle
    a' := a'[base + 3 := ToGLuint(topLeft + 1)];
    a' := a'[base + 4 := ToGLuint(topLeft + verticesPerSide)];
    a' := a'[base + 5 := ToGLuint(topLeft + verticesPerSide + 1)];
    writes' := Touched(writes, base, base + 5);
  }
}

=== FILE: widths.dfy ===
/** Machine integer widths of the mesh generator.

    The generator computes sizes, slots and vertex numbers in the 64-bit
    `size_t` type, stores vertex numbers into a 32-bit `GLuint` element
    array, and passes the element count to the draw call as a 32-bit signed
    `GLsizei`. Both conversions truncate; this module models them and states
    when they are harmless.
 */
module Widths {
  import opened Layout

  const GLUINT_MODULUS: nat := 0x1_0000_0000
  const SIZE_T_MODULUS: nat := 0x1_0000_0000_0000_0000
  const GLSIZEI_MAX: nat := 0x7FFF_FFFF

  /** Conversion of a `size_t` value to `GLuint`: keeps the low 32 bits. */
  function ToGLuint(x: nat): (r: nat)
    ensures r < GLUINT_MODULUS
    ensures (x - r) % GLUINT_MODULUS == 0
    ensures x < GLUINT_MODULUS ==> r == x
    ensures x >= GLUINT_MODULUS ==> r != x
  {
    x % GLUINT_MODULUS
  }

  /** Conversion of a `size_t` value to `GLsizei`: keeps the low 32 bits and
      reads them as a two's-complement number. */
  function ToGLsizei(x: nat): (r: int)
    ensures -(GLSIZEI_MAX + 1) <= r <= GLSIZEI_MAX
    ensures (x - r) % GLUINT_MODULUS == 0
    ensures r == x <==> x <= GLSIZEI_MAX
    ensures 0 <= r ==> r <= x
  {
    var low := x % GLUINT_MODULUS;
    if low <= GLSIZEI_MAX then low else low - GLUINT_MODULUS
  }

  /** Every vertex number of an `n`-edge grid fits into a `GLuint`. */
  predicate IndicesFit(n: nat)
  {
    VertexCount(n) <= GLUINT_MODULUS
  }

  /** When the vertex numbers fit into a `GLuint`, no `size_t` computation of the
      generator wraps around: the two array sizes, and therefore every slot and
      every vertex number below them, are smaller than 2^64. */
  lemma SizesFitSizeT(n: nat)
    requires IndicesFit(n)
    ensures VertexSlotCount(n) < SIZE_T_MODULUS
    ensures ElementCount(n) < SIZE_T_MODULUS
  {
    assert VertexSlotCount(n) == 3 * VertexCount(n);
    MulMonotone(n, Stride(n), n);
    MulMonotone(n, Stride(n), Stride(n));
    assert 6 * n * n <= 6 * VertexCount(n);
  }

  /** The largest grid whose vertex numbers fit: 65535 edges per side. */
  lemma IndicesFitBound(n: nat)
    ensures IndicesFit(n) <==> n <= 0xFFFF
  {
    if n <= 0xFFFF {
      MulMonotone(Stride(n), 0x1_0000, Stride(n));
      MulMonotone(Stride(n), 0x1_0000, 0x1_0000);
    } else {
      MulMonotone(0x1_0001, Stride(n), Stride(n));
      MulMonotone(0x1_0001, Stride(n), 0x1_0001);
    }
  }

  /** Every index of an `n`-edge grid can be counted in a `GLsizei`. */
  predicate DrawCountFits(n: nat)
  {
    ElementCount(n) <= GLSIZEI_MAX
  }

  /** The largest grid whose index count fits into a `GLsizei`: 18918 edges
      per side. Such a grid's vertex numbers also fit into a `GLuint`. */
  lemma DrawCountFitsBound(n: nat)
    ensures DrawCountFits(n) <==> n <= 18918
    ensures DrawCountFits(n) ==> IndicesFit(n)
  {
    if n <= 18918 {
      MulMonotone(n, 18918, n);
      MulMonotone(n, 18918, 18918);
      assert n * n <= 18918 * 18918;
      IndicesFitBound(n);
    } else {
      MulMonotone(18919, n, n);
      MulMonotone(18919, n, 18919);
      assert 18919 * 18919 <= n * n;
    }
  }
}
